=== FILE: README.md ===
# aws-go: EC2 filter translation and response shaping, in Dafny

This project models the logic core of the `aws-go` command-line client (package
`function`). The client wraps the AWS SDK and shows EC2 instances, RDS DB
instances, Lambda functions and S3 objects as terminal tables. The SDK calls
stay outside the model. What is modelled is the code around those calls:

- **Filter translation** (`filters.dfy`):
  - `EC2Service.SetFilters` turns user filters of the form `key=value` into EC2 filters.
    - The key is looked up in the five-entry `filterMap`.
    - The value becomes three wildcard patterns: `*v*`, `*Title(v)*` and `*lower(v)*`.
  - `EC2Service.LoadFiltersFromFile` does the same for a list decoded from JSON. That list is rewritten in place.
  - Both operations return an `Outcome`: the filter list as the operation leaves it, plus the error it returned.
  - The Go code does not roll back on error. `SetFilters` keeps the filters it appended before the failing input. `LoadFiltersFromFile` keeps the filters it translated before the failing one.
- **Go string functions** (`gostrings.dfy`): `strings.Split`, `Contains`, `Title` and `ToLower`, and `strconv.FormatBool`.
  - `IndexOf`, `Join`, `HasPrefix`, `HasSuffix` and `OccursAt` are proof helpers. The client never calls them; they state what the functions above compute.
  - `Title` is modelled as Go writes it: a character-by-character map that remembers the previous character.
  - Case mapping covers ASCII only.
- **Row shaping** (`instances.dfy`, `rds.dfy`):
  - `GetInstances` makes one row per reservation. Terminated instances add no columns.
  - `getInstanceName` returns the value of the last `Name` tag.
  - `GetRDSInstances` makes one six-column row per DB instance that is not terminated.
  - The SDK response arrives as a `Result`. Its error is passed on unchanged.
  - `utils.WordWrap`'s body is not part of this model, so it is a function parameter and nothing is assumed about it.
- **Request construction** (`requests.dfy`): the ListObjectsV2, StartInstances and StopInstances request values.

Details of the code that the model keeps:

- The three patterns carry `*` wildcards on both sides.
- The value is only the text between the first and the second `=`. Anything after a second `=` is dropped.
- The file loop title-cases and lower-cases the *already wrapped* value. `TitleWrap` and `LowerWrap` show that this gives the same patterns: `*` counts as a word separator, and case mapping leaves it unchanged.
- A reservation row lists each live instance's columns in this order:
  - the name, only when the instance has a tag list;
  - id, state and private IP;
  - public IP, which is `""` when absent;
  - instance type.

## Model

| member | source | states |
|---|---|---|
| GoStrings.Split | function/function.go:146-151 | at least one piece; no piece contains the separator; joining the pieces gives back the input; a second piece exists exactly when the input contains `=`, so after the format check `userFilter[1]` is in bounds |
| GoStrings.SplitJoin | function/function.go:151 | splitting undoes joining when no piece contains the separator |
| GoStrings.SplitFields | function/function.go:151-153 | piece 0 is the text before the first separator; piece 1 is the text between the first and second separator, or the rest of the string |
| GoStrings.ContainsIffOccurs | function/function.go:176 | the scanning substring test holds exactly when the substring occurs at some position |
| GoStrings.TitleAfter | function/function.go:160 | Title's scan title-cases exactly the characters whose predecessor is a separator (the carried character for the first); the length is unchanged |
| GoStrings.ToLower | function/function.go:161 | lower-casing keeps the length and maps every character through ASCII `unicode.ToLower`: no ASCII capital is left and no other character changes |
| GoStrings.Title | function/function.go:160 | `strings.Title` keeps the length and title-cases exactly the characters that start a word, the first character or one after a separator, leaving all others unchanged |
| GoStrings.TitleWrap | function/function.go:197 | title-casing `*v*` gives `*` + Title(v) + `*` |
| GoStrings.LowerWrap | function/function.go:198 | lower-casing `*v*` gives `*` + lower(v) + `*` |
| Filters.Message | function/function.go:147-191 | the two filter errors start with `filter error: `, the file name error with `filter file error: `, a read error is passed on as its own text; the key of an invalid-key message can be read back from it, and the format error yields no key |
| Filters.KeyErrorNamesKey | function/function.go:155 | the invalid-key message contains the key as a substring |
| Filters.TranslateUserFilter | function/function.go:146-165 | the format error comes exactly for inputs with no `=`; with `=`, success comes exactly when the text before the first `=` is a table key, and otherwise the error names that key; on success the filter has the mapped name and the three patterns of the text between the first and second `=` |
| Filters.AcceptedKeys | function/function.go:33-39 | a translated user filter's key is one of `az`, `id`, `name`, `state`, `type`, and it has exactly three values |
| Filters.AppendUntilFailure | function/function.go:145-168 | existing filters are kept as a prefix; with no failure one filter per input is appended, in order; on failure at input k the error is input k's, and the filters of inputs 0..k-1 stay appended |
| Filters.SetFilters | function/function.go:144-171 | the same prefix, success and first-failure facts, stated in terms of each input's translation |
| Filters.SetFiltersConcat | function/function.go:144-171 | calling SetFilters on `a` and then on `b` equals calling it once on `a + b`; if the first call fails, it stops there |
| Filters.FileValuesLoop | function/function.go:195-200 | each of the loop's remaining original positions adds two values to the list |
| Filters.FileValuesLoopDone | function/function.go:195-200 | the in-place value loop (over the original length only) wraps each original and appends its title and lower forms after the originals |
| Filters.FileValues | function/function.go:194-200 | n values become 3n values: the n wrapped originals, then for each original in order its wrapped title form and its wrapped lower form |
| Filters.TranslateFileFilter | function/function.go:189-200 | a decoded filter translates exactly when its name is a table key; on success it gets the mapped name and its values become `FileValues` of the old ones (3n values: wrapped originals, then wrapped title and lower forms); otherwise the error names the filter name |
| Filters.RewriteUntilFailure | function/function.go:188-201 | the rewrite keeps the list length; it succeeds exactly when every filter translates; on failure at k, filters before k are replaced by their translations and filters from k on are untouched |
| Filters.TranslateFileFilters | function/function.go:188-203 | the same in-place facts, with the failing filter's name missing from the table and reported in the error |
| Filters.LoadFiltersFromFile | function/function.go:175-203 | a file name without `.json` anywhere, or a read error, leaves the filters as they were and reports the error; otherwise the outcome is the in-place rewrite `TranslateFileFilters` of the decoded list (or of the existing list when decoding left it alone), same length, with success exactly when every name is a table key |
| Filters.FileNameCheck | function/function.go:176-178 | every name ending in `.json` passes the file name test, and no name without a `j` passes |
| Filters.FileAgreesWithUser | function/function.go:194-200 | a decoded filter with one value `v` and key `k` translates exactly like the user filter `k=v`, when neither `k` nor `v` contains `=` |
| Instances.NameScan | function/function.go:361-366 | the scan keeps its start value when no tag has key `Name`, and otherwise ends with the value of the last such tag |
| Instances.InstanceName | function/function.go:360-368 | `getInstanceName` gives `""` when no tag has key `Name`, and otherwise the value of the last such tag |
| Instances.InstanceColumns | function/function.go:226-240 | a terminated instance contributes nothing; any other instance contributes its name (only when it has a tag list), then id, state, private IP, public IP (`""` when absent) and type |
| Instances.ReservationRow | function/function.go:225-242 | the row of a single instance is its `InstanceColumns`, so with `RowConcat` a reservation's row is its instances' columns in order; it has 5 columns per live instance plus 1 per live instance with a tag list, and it is empty exactly when all of its instances are terminated |
| Instances.GetInstances | function/function.go:217-244 | the SDK error is passed on; otherwise there is one row per reservation, in order |
| Instances.RowConcat | function/function.go:225-242 | the row of consecutive instances is the concatenation of their rows |
| Instances.TerminatedContributesNothing | function/function.go:227-229 | a terminated instance can be removed from anywhere without changing the row |
| Rds.LiveDBs | function/function.go:302-305 | the non-terminated DB instances: none of them is terminated, every live instance is included, and nothing else is |
| Rds.LiveDBsConcat | function/function.go:302-305 | the live instances of `a + b` are those of `a` followed by those of `b`, so input order is kept and each instance is taken once |
| Rds.LiveDBsSingle | function/function.go:303-305 | a single DB instance is dropped exactly when its status is `terminated` |
| Rds.DBRow | function/function.go:307-314 | six columns: the identifier word-wrapped at `-`, the status, the endpoint address word-wrapped at `.`, the instance class, `engine/version` (which splits back on `/` into engine and version when neither contains `/`), and `strconv.FormatBool` of Multi-AZ, which is `true` exactly for Multi-AZ instances and `false` for the others |
| Rds.DBRows | function/function.go:301-318 | at most one row per DB instance; every row has six columns and its status column is never `terminated` |
| Rds.RowsOfLiveDBs | function/function.go:301-318 | row k is the row of the k-th non-terminated DB instance, and there are no other rows |
| Rds.GetRDSInstances | function/function.go:293-318 | the SDK error is passed on; otherwise there is exactly one row per live DB instance, in order |
| Rds.EngineColumnSplits | function/function.go:311 | the engine column splits on `/` back into engine and version when neither contains `/` |
| Requests.GetObjectsRequest | function/function.go:328-343 | the bucket and page size are always set; the prefix and continuation token are set exactly when non-empty and never as `""`; the options can be read back from the request |
| Requests.InstanceIdList | function/function.go:249-252 | the ID copy loop yields every ID, in order |
| Requests.StartInstances | function/function.go:248-259 | the start request carries every ID, in order, and the dry-run flag |
| Requests.StopInstances | function/function.go:262-273 | the stop request carries every ID, in order, and the dry-run flag |

## Left out

- `NewSession`: credential storage and SDK session construction are I/O in a foreign library.
- The SDK calls are left out: `DescribeInstances`, `DescribeDBInstances`, `StartInstances`, `StopInstances`, `ListFunctions`, `Invoke`, `ListBuckets`, `ListObjectsV2` and the downloader.
  - Their responses are inputs to the model.
  - `GetAllInstances`, `GetFunctions` and `GetBuckets` only send an empty request, so there is nothing left to model.
- `InvokeFunction`'s request only copies the function name and the constant invocation type `RequestResponse`, so there is nothing to prove about it.
- The DescribeInstances request in `GetInstances` is left out. It only passes the filter list on, or sends no input when the list is nil.
- `DownloadObject`: creating a file and running the download manager is I/O.
- Reading the filter file and decoding its JSON are I/O. `Filters.FileRead` gives their result as an input:
  - a read error;
  - the list the decoder produced;
  - or `None` when decoding failed without touching the list. The client ignores decoding errors, so in that case the loop runs over the filters that were already there. A decoder that fails part-way after filling some entries is given as `Some` of the list it left.
- Nil-pointer dereferences panic in Go, and the model leaves them out. Examples are a decoded filter without a name and an instance without a state. Those fields are plain strings in the model; only tags and the public IP are optional.
- GoStrings.TitleAfter, GoStrings.Title: model Go's `strings.Title` over ASCII only. Non-ASCII characters are never title-cased and never count as separators. Go title-cases Unicode letters and treats Unicode spaces as separators.
- GoStrings.ToLower: models Go's `strings.ToLower` over ASCII only. Non-ASCII characters are left unchanged.
- `utils.WordWrap` and `store.GetCredentials` are not part of this model. `WordWrap` is a parameter of the RDS row functions.
- Command-line wiring, spinners, table printing, and the version and upgrade commands are presentation only.

=== FILE: filters.dfy ===
/** The EC2 filter translation of `EC2Service`: user filters of the form
    `key=value`, or filters decoded from a JSON file, are turned into provider
    filters whose name comes from a fixed table and whose values are wildcard
    patterns in several letter cases. */
module Filters {
  import opened Wrappers
  import opened GoStrings

  /** An EC2 filter: a provider filter name and the patterns it matches. */
  datatype Filter = Filter(name: string, values: seq<string>)

  /** The errors the filter translation reports. */
  datatype Error =
    | InvalidFilterFormat
    | InvalidFilterKey(key: string)
    | InvalidFileFormat
    | ReadFailed(reason: string)

  /** The state of `EC2Service.Filters` after an operation, together with the
      error it returned. On failure the operations do not roll back: whatever
      they already did to the filter list stays done. */
  datatype Outcome = Outcome(filters: seq<Filter>, err: Option<Error>)

  /** The text of each error, as the client prints it. Errors about a filter
      start with `filter error: `, the file format error with `filter file
      error: `, a read error is passed on as it is, and the offending key can be
      read back from an invalid-key message. */
  function Message(e: Error): (m: string)
    ensures e.InvalidFilterFormat? || e.InvalidFilterKey? ==> HasPrefix(m, "filter error: ")
    ensures e.InvalidFileFormat? ==> HasPrefix(m, "filter file error: ")
    ensures e.ReadFailed? ==> m == e.reason
    ensures e.InvalidFilterKey? ==> KeyOfMessage(m) == Some(e.key)
    ensures e.InvalidFilterFormat? ==> KeyOfMessage(m) == None
  {
    match e
    case InvalidFilterFormat => "filter error: invalid filter format"
    case InvalidFilterKey(key) =>
      var m := KeyErrorPrefix + key + "'";
      assert m[..|KeyErrorPrefix|] == KeyErrorPrefix;
      assert m[|KeyErrorPrefix|..|m| - 1] == key;
      m
    case InvalidFileFormat => "filter file error: invalid file format"
    case ReadFailed(reason) => reason
  }

  const KeyErrorPrefix := "filter error: invalid filter key: '"

  /** Reads the offending key back out of an invalid-key message. */
  function KeyOfMessage(m: string): Option<string> {
    if HasPrefix(m, KeyErrorPrefix) && |m| > |KeyErrorPrefix| && m[|m| - 1] == '\''
    then Some(m[|KeyErrorPrefix|..|m| - 1])
    else None
  }

  /** An invalid-key message names the key verbatim. */
  lemma KeyErrorNamesKey(key: string)
    ensures Contains(Message(InvalidFilterKey(key)), key)
  {
    var m := Message(InvalidFilterKey(key));
    assert m[|KeyErrorPrefix|..|m| - 1] == key;
    assert OccursAt(m, key, |KeyErrorPrefix|);
    ContainsIffOccurs(m, key);
  }

  /** The short keys a user may write, and the EC2 filter names they stand for. */
  const FilterMap: map<string, string> := map[
    "az" := "availability-zone",
    "id" := "instance-id",
    "name" := "tag:Name",
    "state" := "instance-state-name",
    "type" := "instance-type"
  ]

  /** The three patterns a user value expands to: as given, title-cased and
      lower-cased, each between `*` wildcards. */
  function Patterns(v: string): seq<string> {
    [Wrap(v), Wrap(Title(v)), Wrap(ToLower(v))]
  }

  // ---------------------------------------------------------------------------
  // SetFilters
  // ---------------------------------------------------------------------------

  /** The key of a user filter: the text before its first `=`. */
  function KeyOf(f: string): string
    requires '=' in f
  {
    f[..IndexOf(f, '=')]
  }

  /** The value of a user filter: the text between its first and second `=`;
      anything from a second `=` on is dropped. */
  function ValueOf(f: string): string
    requires '=' in f
  {
    var rest := f[IndexOf(f, '=') + 1..];
    if '=' in rest then rest[..IndexOf(rest, '=')] else rest
  }

  /** One iteration of `SetFilters`: checks the format, splits on `=`, looks
      the key up and expands the value. */
  function TranslateUserFilter(f: string): (r: Result<Filter, Error>)
    ensures r == Failure(InvalidFilterFormat) <==> '=' !in f
    ensures '=' in f ==> (r.Success? <==> KeyOf(f) in FilterMap)
    ensures '=' in f && KeyOf(f) !in FilterMap ==> r == Failure(InvalidFilterKey(KeyOf(f)))
    ensures r.Success? ==> '=' in f && r.value == Filter(FilterMap[KeyOf(f)], Patterns(ValueOf(f)))
  {
    if '=' !in f then Failure(InvalidFilterFormat)
    else
      var userFilter := Split(f, '=');
      SplitFields(f, '=');
      if userFilter[0] !in FilterMap then Failure(InvalidFilterKey(userFilter[0]))
      else Success(Filter(FilterMap[userFilter[0]], Patterns(userFilter[1])))
  }

  /** The accumulation loop of `SetFilters`, given each input's translation:
      appends the translated filters to `existing` in order and stops at the
      first failure, keeping what it already appended. */
  function AppendUntilFailure(existing: seq<Filter>, results: seq<Result<Filter, Error>>): (o: Outcome)
    ensures |existing| <= |o.filters| && o.filters[..|existing|] == existing
    ensures o.err.None? <==> forall i :: 0 <= i < |results| ==> results[i].Success?
    ensures o.err.None? ==>
      && |o.filters| == |existing| + |results|
      && forall i :: 0 <= i < |results| ==> results[i] == Success(o.filters[|existing| + i])
    ensures o.err.Some? ==>
      var k := |o.filters| - |existing|;
      && k < |results|
      && results[k] == Failure(o.err.value)
      && forall j :: 0 <= j < k ==> results[j] == Success(o.filters[|existing| + j])
    decreases |results|
  {
    if |results| == 0 then Outcome(existing, None)
    else if results[0].Failure? then Outcome(existing, Some(results[0].error))
    else
      var o := AppendUntilFailure(existing + [results[0].value], results[1..]);
      assert forall i :: 1 <= i < |results| ==> results[i] == results[1..][i - 1];
      assert o.filters[..|existing|] == (existing + [results[0].value])[..|existing|];
      o
  }

  /** `EC2Service.SetFilters`: translates the user filters in order and appends
      each result to `existing`, stopping at the first one that fails. */
  function SetFilters(existing: seq<Filter>, inputs: seq<string>): (o: Outcome)
    ensures |existing| <= |o.filters| && o.filters[..|existing|] == existing
    ensures o.err.None? <==> forall i :: 0 <= i < |inputs| ==> TranslateUserFilter(inputs[i]).Success?
    ensures o.err.None? ==>
      && |o.filters| == |existing| + |inputs|
      && forall i :: 0 <= i < |inputs| ==> TranslateUserFilter(inputs[i]) == Success(o.filters[|existing| + i])
    ensures o.err.Some? ==>
      var k := |o.filters| - |existing|;
      && k < |inputs|
      && TranslateUserFilter(inputs[k]) == Failure(o.err.value)
      && forall j :: 0 <= j < k ==> TranslateUserFilter(inputs[j]) == Success(o.filters[|existing| + j])
  {
    AppendUntilFailure(existing, TranslateAll(inputs))
  }

  /** Each input's translation, in order. */
  function TranslateAll(inputs: seq<string>): (rs: seq<Result<Filter, Error>>)
    ensures |rs| == |inputs|
    ensures forall i :: 0 <= i < |inputs| ==> rs[i] == TranslateUserFilter(inputs[i])
  {
    seq(|inputs|, i requires 0 <= i < |inputs| => TranslateUserFilter(inputs[i]))
  }

  /** Only the five table keys are accepted, whatever the value. */
  lemma AcceptedKeys(f: string)
    requires TranslateUserFilter(f).Success?
    ensures '=' in f && KeyOf(f) in {"az", "id", "name", "state", "type"}
    ensures |TranslateUserFilter(f).value.values| == 3
  {
  }

  /** The accumulation loop run on two lists in a row is the loop run on the
      first, then, if it did not fail, on the second. */
  lemma {:induction false} AppendConcat(existing: seq<Filter>, a: seq<Result<Filter, Error>>, b: seq<Result<Filter, Error>>)
    ensures var o := AppendUntilFailure(existing, a);
      AppendUntilFailure(existing, a + b) == if o.err.Some? then o else AppendUntilFailure(o.filters, b)
    decreases |a|
  {
    if |a| == 0 {
      assert a + b == b;
    } else {
      assert (a + b)[0] == a[0];
      assert (a + b)[1..] == a[1..] + b;
      if a[0].Success? {
        AppendConcat(existing + [a[0].value], a[1..], b);
      }
    }
  }

  /** Calling `SetFilters` twice is calling it once on both lists, unless the
      first call failed, in which case the second never happens. */
  lemma SetFiltersConcat(existing: seq<Filter>, a: seq<string>, b: seq<string>)
    ensures var o := SetFilters(existing, a);
      SetFilters(existing, a + b) == if o.err.Some? then o else SetFilters(o.filters, b)
  {
    assert TranslateAll(a + b) == TranslateAll(a) + TranslateAll(b);
    AppendConcat(existing, TranslateAll(a), TranslateAll(b));
  }

  // ---------------------------------------------------------------------------
  // LoadFiltersFromFile
  // ---------------------------------------------------------------------------

  /** The value loop of `LoadFiltersFromFile`, run over the first `n` values
      only (Go's `range` reads the slice once): value `i` is wrapped in place,
      and its title-cased and lower-cased forms are appended at the end. */
  function FileValuesLoop(vals: seq<string>, n: nat, i: nat): (r: seq<string>)
    requires i <= n <= |vals|
    ensures |r| == |vals| + 2 * (n - i)
    decreases n - i
  {
    if i == n then vals
    else
      var w := Wrap(vals[i]);
      FileValuesLoop(vals[i := w] + [Title(w), ToLower(w)], n, i + 1)
  }

  /** What the value loop has done after `i` of the original values. */
  ghost predicate LoopDone(orig: seq<string>, vals: seq<string>, i: nat) {
    var n := |orig|;
    && i <= n
    && |vals| == n + 2 * i
    && (forall k :: 0 <= k < i ==> vals[k] == Wrap(orig[k]))
    && (forall k :: i <= k < n ==> vals[k] == orig[k])
    && (forall k :: 0 <= k < i ==>
         vals[n + 2 * k] == Title(Wrap(orig[k])) && vals[n + 2 * k + 1] == ToLower(Wrap(orig[k])))
  }

  /** Running the rest of the value loop completes the work. */
  lemma {:induction false} FileValuesLoopDone(orig: seq<string>, vals: seq<string>, i: nat)
    requires LoopDone(orig, vals, i)
    ensures LoopDone(orig, FileValuesLoop(vals, |orig|, i), |orig|)
    decreases |orig| - i
  {
    var n := |orig|;
    if i < n {
      var w := Wrap(vals[i]);
      var next := vals[i := w] + [Title(w), ToLower(w)];
      assert w == Wrap(orig[i]);
      assert |next| == n + 2 * (i + 1);
      forall k | 0 <= k < i + 1 ensures next[k] == Wrap(orig[k]) {
      }
      forall k | i + 1 <= k < n ensures next[k] == orig[k] {
      }
      forall k | 0 <= k < i + 1
        ensures next[n + 2 * k] == Title(Wrap(orig[k])) && next[n + 2 * k + 1] == ToLower(Wrap(orig[k]))
      {
        if k < i {
          assert next[n + 2 * k] == vals[n + 2 * k] && next[n + 2 * k + 1] == vals[n + 2 * k + 1];
        }
      }
      FileValuesLoopDone(orig, next, i + 1);
    }
  }

  /** The values of a filter read from a file, after translation: the `n`
      originals wrapped in `*`, followed, for each original in order, by the
      wrapped title-cased and the wrapped lower-cased value. */
  function FileValues(values: seq<string>): (r: seq<string>)
    ensures |r| == 3 * |values|
    ensures forall k :: 0 <= k < |values| ==> r[k] == Wrap(values[k])
    ensures forall k :: 0 <= k < |values| ==>
      r[|values| + 2 * k] == Wrap(Title(values[k])) && r[|values| + 2 * k + 1] == Wrap(ToLower(values[k]))
  {
    FileValuesLoopDone(values, values, 0);
    forall k | 0 <= k < |values|
      ensures Title(Wrap(values[k])) == Wrap(Title(values[k]))
      ensures ToLower(Wrap(values[k])) == Wrap(ToLower(values[k]))
    {
      TitleWrap(values[k]);
      LowerWrap(values[k]);
    }
    FileValuesLoop(values, |values|, 0)
  }

  /** One iteration of the filter loop of `LoadFiltersFromFile`. The count of
      values follows from `FileValues`; it is spelled out for the reader. */
  function TranslateFileFilter(f: Filter): (r: Result<Filter, Error>)
    ensures r.Success? <==> f.name in FilterMap
    ensures r.Failure? ==> r.error == InvalidFilterKey(f.name)
    ensures r.Success? ==> r.value.name == FilterMap[f.name] && |r.value.values| == 3 * |f.values|
    ensures r.Success? ==> r.value.values == FileValues(f.values)
  {
    if f.name !in FilterMap then Failure(InvalidFilterKey(f.name))
    else Success(Filter(FilterMap[f.name], FileValues(f.values)))
  }

  /** The loop stopped at position `k`: `results[k]` failed with the reported
      error, every earlier result succeeded and replaced its filter, and the
      filters from `k` on are as they were. */
  ghost predicate StoppedAt(fs: seq<Filter>, results: seq<Result<Filter, Error>>, o: Outcome, k: int) {
    && 0 <= k < |fs| == |results| == |o.filters|
    && o.err.Some?
    && results[k] == Failure(o.err.value)
    && o.filters[k..] == fs[k..]
    && forall j :: 0 <= j < k ==> results[j] == Success(o.filters[j])
  }

  /** The in-place rewriting loop of `LoadFiltersFromFile`, given each filter's
      translation: replaces the filters one by one and stops at the first
      failure, leaving that filter and the rest untouched. */
  function RewriteUntilFailure(fs: seq<Filter>, results: seq<Result<Filter, Error>>): (o: Outcome)
    requires |results| == |fs|
    ensures |o.filters| == |fs|
    ensures o.err.None? <==> forall i :: 0 <= i < |results| ==> results[i].Success?
    ensures o.err.None? ==> forall i :: 0 <= i < |fs| ==> results[i] == Success(o.filters[i])
    ensures o.err.Some? ==> exists k :: StoppedAt(fs, results, o, k)
    decreases |fs|
  {
    if |fs| == 0 then Outcome([], None)
    else if results[0].Failure? then
      var o := Outcome(fs, Some(results[0].error));
      assert StoppedAt(fs, results, o, 0);
      o
    else
      var rest := RewriteUntilFailure(fs[1..], results[1..]);
      var o := Outcome([results[0].value] + rest.filters, rest.err);
      assert forall i :: 1 <= i < |fs| ==> results[i] == results[1..][i - 1];
      if rest.err.Some? then
        StoppedLater(fs, results, rest, results[0].value);
        o
      else
        o
  }

  /** A stop in the tail of the loop is a stop one position later in the whole. */
  lemma StoppedLater(fs: seq<Filter>, results: seq<Result<Filter, Error>>, rest: Outcome, first: Filter)
    requires |fs| == |results| > 0 && results[0] == Success(first)
    requires exists k :: StoppedAt(fs[1..], results[1..], rest, k)
    ensures exists k :: StoppedAt(fs, results, Outcome([first] + rest.filters, rest.err), k)
  {
    var o := Outcome([first] + rest.filters, rest.err);
    var k :| StoppedAt(fs[1..], results[1..], rest, k);
    assert o.filters[k + 1..] == rest.filters[k..];
    assert fs[k + 1..] == fs[1..][k..];
    assert forall i :: 1 <= i < |fs| ==> results[i] == results[1..][i - 1];
    assert StoppedAt(fs, results, o, k + 1);
  }

  /** Each filter's translation, in order. */
  function TranslateEach(fs: seq<Filter>): (rs: seq<Result<Filter, Error>>)
    ensures |rs| == |fs|
    ensures forall i :: 0 <= i < |fs| ==> rs[i] == TranslateFileFilter(fs[i])
  {
    seq(|fs|, i requires 0 <= i < |fs| => TranslateFileFilter(fs[i]))
  }

  /** The filter loop of `LoadFiltersFromFile`. It rewrites the list in place,
      so it keeps its length; when filter `k` has an unknown name the filters
      before `k` are already translated and those from `k` on are untouched. */
  function TranslateFileFilters(fs: seq<Filter>): (o: Outcome)
    ensures |o.filters| == |fs|
    ensures o.err.None? <==> forall i :: 0 <= i < |fs| ==> fs[i].name in FilterMap
    ensures o.err.None? ==> forall i :: 0 <= i < |fs| ==> TranslateFileFilter(fs[i]) == Success(o.filters[i])
    ensures o.err.Some? ==> exists k :: (
      && 0 <= k < |fs|
      && fs[k].name !in FilterMap
      && o.err.value == InvalidFilterKey(fs[k].name)
      && o.filters[k..] == fs[k..]
      && forall j :: 0 <= j < k ==> TranslateFileFilter(fs[j]) == Success(o.filters[j]))
  {
    var o := RewriteUntilFailure(fs, TranslateEach(fs));
    if o.err.Some? then
      StoppedOnUnknownName(fs, o);
      o
    else
      o
  }

  /** Where the file loop stops, the filter name is missing from the table. */
  lemma StoppedOnUnknownName(fs: seq<Filter>, o: Outcome)
    requires exists k :: StoppedAt(fs, TranslateEach(fs), o, k)
    ensures exists k :: (
      && 0 <= k < |fs|
      && fs[k].name !in FilterMap
      && o.err.value == InvalidFilterKey(fs[k].name)
      && o.filters[k..] == fs[k..]
      && forall j :: 0 <= j < k ==> TranslateFileFilter(fs[j]) == Success(o.filters[j]))
  {
    var k :| StoppedAt(fs, TranslateEach(fs), o, k);
    assert fs[k].name !in FilterMap;
  }

  /** What reading and decoding the filter file produced: a read error, or the
      filter list as the JSON decoder left it (`None` when decoding failed and
      left the list as it was; the client ignores decoding errors). */
  datatype FileRead = ReadError(reason: string) | Read(decoded: Option<seq<Filter>>)

  /** `EC2Service.LoadFiltersFromFile`, after the file name check, the read and
      the decoding. The length and success clauses of the decoded case follow
      from `TranslateFileFilters`; they are spelled out for the reader. */
  function LoadFiltersFromFile(existing: seq<Filter>, fileName: string, read: FileRead): (o: Outcome)
    ensures !Contains(fileName, ".json") ==> o == Outcome(existing, Some(InvalidFileFormat))
    ensures Contains(fileName, ".json") && read.ReadError? ==> o == Outcome(existing, Some(ReadFailed(read.reason)))
    ensures Contains(fileName, ".json") && read.Read? ==>
      var fs := read.decoded.GetOr(existing);
      && o == TranslateFileFilters(fs)
      && |o.filters| == |fs|
      && (o.err.None? <==> forall i :: 0 <= i < |fs| ==> fs[i].name in FilterMap)
  {
    if !Contains(fileName, ".json") then Outcome(existing, Some(InvalidFileFormat))
    else
      match read
      case ReadError(reason) => Outcome(existing, Some(ReadFailed(reason)))
      case Read(decoded) => TranslateFileFilters(decoded.GetOr(existing))
  }

  /** The file name test is a substring test (`ContainsIffOccurs`): any name
      ending in `.json` passes, and no name without a `j` in it does. */
  lemma FileNameCheck(fileName: string)
    ensures HasSuffix(fileName, ".json") ==> Contains(fileName, ".json")
    ensures 'j' !in fileName ==> !Contains(fileName, ".json")
  {
    if HasSuffix(fileName, ".json") {
      SuffixIsContained(fileName, ".json");
    }
    if Contains(fileName, ".json") {
      ContainedCharsOccur(fileName, ".json");
      assert ".json"[1] == 'j';
    }
  }

  /** A filter read from a file with a single value is translated exactly as
      the user filter `key=value` would be. */
  lemma FileAgreesWithUser(key: string, v: string)
    requires '=' !in key && '=' !in v
    ensures TranslateFileFilter(Filter(key, [v])) == TranslateUserFilter(key + "=" + v)
  {
    var f := key + "=" + v;
    FirstSeparatorAfter(key, '=', v);
    assert KeyOf(f) == key;
    assert ValueOf(f) == v;
    var r := FileValues([v]);
    assert r == Patterns(v);
  }
}

=== FILE: gostrings.dfy ===
/** The parts of Go's `strings` and `strconv` packages that the client relies on
    (`Split`, `Contains`, `Title`, `ToLower`, `FormatBool`), together with
    `IndexOf`, `Join`, `HasPrefix`, `HasSuffix` and `OccursAt`, which the
    client never calls but which state and prove their properties.
    Case mapping and word boundaries are modelled over ASCII only: every
    character outside ASCII is left unchanged and counts as part of a word. */
module GoStrings {

  // ---------------------------------------------------------------------------
  // Searching
  // ---------------------------------------------------------------------------

  /** Position of the first occurrence of `c` in `s` (Go's `strings.IndexByte`). */
  function IndexOf(s: string, c: char): (i: nat)
    requires c in s
    ensures i < |s| && s[i] == c
    ensures forall j :: 0 <= j < i ==> s[j] != c
  {
    if s[0] == c then 0 else 1 + IndexOf(s[1..], c)
  }

  /** `IndexOf` is determined by its contract: the first position holding `c`. */
  lemma IndexOfUnique(s: string, c: char, i: nat)
    requires i < |s| && s[i] == c
    requires forall j :: 0 <= j < i ==> s[j] != c
    ensures c in s && IndexOf(s, c) == i
  {
  }

  predicate HasPrefix(s: string, prefix: string) {
    |prefix| <= |s| && s[..|prefix|] == prefix
  }

  predicate HasSuffix(s: string, suffix: string) {
    |suffix| <= |s| && s[|s| - |suffix|..] == suffix
  }

  /** `sub` occurs in `s` starting at position `i`. */
  predicate OccursAt(s: string, sub: string, i: nat) {
    i + |sub| <= |s| && s[i..i + |sub|] == sub
  }

  /** Go's `strings.Contains`: a substring test, scanning left to right. */
  predicate Contains(s: string, sub: string)
    decreases |s|
  {
    HasPrefix(s, sub) || (|s| > 0 && Contains(s[1..], sub))
  }

  /** The scanning definition of `Contains` agrees with "occurs at some position". */
  lemma {:induction false} ContainsIffOccurs(s: string, sub: string)
    ensures Contains(s, sub) <==> exists i: nat :: OccursAt(s, sub, i)
    decreases |s|
  {
    if HasPrefix(s, sub) {
      assert OccursAt(s, sub, 0);
    } else if |s| > 0 {
      ContainsIffOccurs(s[1..], sub);
      if exists i: nat :: OccursAt(s[1..], sub, i) {
        var i: nat :| OccursAt(s[1..], sub, i);
        assert s[1..][i..i + |sub|] == s[i + 1..i + 1 + |sub|];
        assert OccursAt(s, sub, i + 1);
      }
      if exists i: nat :: OccursAt(s, sub, i) {
        var i: nat :| OccursAt(s, sub, i);
        if i > 0 {
          assert s[1..][i - 1..i - 1 + |sub|] == s[i..i + |sub|];
          assert OccursAt(s[1..], sub, i - 1);
        }
      }
    }
  }

  /** Every string that ends with `sub` contains it. */
  lemma SuffixIsContained(s: string, sub: string)
    requires HasSuffix(s, sub)
    ensures Contains(s, sub)
  {
    assert OccursAt(s, sub, |s| - |sub|);
    ContainsIffOccurs(s, sub);
  }

  /** Every character of a contained string occurs in the containing one. */
  lemma ContainedCharsOccur(s: string, sub: string)
    requires Contains(s, sub)
    ensures forall k :: 0 <= k < |sub| ==> sub[k] in s
  {
    ContainsIffOccurs(s, sub);
    var i: nat :| OccursAt(s, sub, i);
    forall k | 0 <= k < |sub| ensures sub[k] in s {
      assert s[i..i + |sub|][k] == s[i + k];
    }
  }

  // ---------------------------------------------------------------------------
  // Splitting and joining on a single-character separator
  // ---------------------------------------------------------------------------

  /** Concatenates `parts` with `sep` between neighbours (Go's `strings.Join`). */
  function Join(parts: seq<string>, sep: char): string
    requires |parts| >= 1
  {
    if |parts| == 1 then parts[0] else parts[0] + [sep] + Join(parts[1..], sep)
  }

  /** Go's `strings.Split(s, sep)` for a one-character separator: the pieces
      between occurrences of `sep`, found by repeated `IndexOf`. There is always
      at least one piece, none contains `sep`, joining them back gives `s`, and a
      second piece exists exactly when `s` contains `sep`. */
  function Split(s: string, sep: char): (parts: seq<string>)
    ensures |parts| >= 1
    ensures forall k :: 0 <= k < |parts| ==> sep !in parts[k]
    ensures Join(parts, sep) == s
    ensures sep in s <==> |parts| >= 2
    decreases |s|
  {
    if sep !in s then [s]
    else
      var i := IndexOf(s, sep);
      assert s == s[..i] + [sep] + s[i + 1..];
      [s[..i]] + Split(s[i + 1..], sep)
  }

  /** In `p + [sep] + rest` with no `sep` in `p`, the first separator is the one after `p`. */
  lemma FirstSeparatorAfter(p: string, sep: char, rest: string)
    requires sep !in p
    ensures var s := p + [sep] + rest;
      && sep in s
      && IndexOf(s, sep) == |p|
      && s[..|p|] == p
      && s[|p| + 1..] == rest
  {
    var s := p + [sep] + rest;
    assert s[|p|] == sep;
    forall j | 0 <= j < |p| ensures s[j] != sep {
      assert s[j] == p[j];
    }
    IndexOfUnique(s, sep, |p|);
    assert s[..|p|] == p;
    assert s[|p| + 1..] == rest;
  }

  /** Splitting undoes joining, whenever no piece contains the separator. */
  lemma {:induction false} SplitJoin(parts: seq<string>, sep: char)
    requires |parts| >= 1
    requires forall k :: 0 <= k < |parts| ==> sep !in parts[k]
    ensures Split(Join(parts, sep), sep) == parts
    decreases |parts|
  {
    if |parts| > 1 {
      var rest := Join(parts[1..], sep);
      assert Join(parts, sep) == parts[0] + [sep] + rest;
      FirstSeparatorAfter(parts[0], sep, rest);
      SplitJoin(parts[1..], sep);
      assert Split(Join(parts, sep), sep) == [parts[0]] + Split(rest, sep);
      assert parts == [parts[0]] + parts[1..];
    }
  }

  /** The first piece of a split is the text before the first separator, and
      the second is the text between the first and the second separator (or the
      rest of the string when there is no second one). */
  lemma SplitFields(s: string, sep: char)
    requires sep in s
    ensures Split(s, sep)[0] == s[..IndexOf(s, sep)]
    ensures var rest := s[IndexOf(s, sep) + 1..];
      Split(s, sep)[1] == if sep in rest then rest[..IndexOf(rest, sep)] else rest
  {
    var rest := s[IndexOf(s, sep) + 1..];
    assert Split(s, sep) == [s[..IndexOf(s, sep)]] + Split(rest, sep);
  }

  // ---------------------------------------------------------------------------
  // Case mapping (ASCII)
  // ---------------------------------------------------------------------------

  predicate IsAsciiUpper(c: char) {
    'A' <= c <= 'Z'
  }

  predicate IsAsciiLower(c: char) {
    'a' <= c <= 'z'
  }

  /** `unicode.ToLower` on ASCII. */
  function LowerChar(c: char): char {
    if IsAsciiUpper(c) then (c as int + 32) as char else c
  }

  /** `unicode.ToTitle` on ASCII, which is upper-casing. */
  function TitleChar(c: char): char {
    if IsAsciiLower(c) then (c as int - 32) as char else c
  }

  /** Go's `isSeparator` as used by `strings.Title`: within ASCII, everything
      except letters, digits and the underscore separates words. */
  predicate IsSeparator(c: char) {
    c as int <= 0x7F
    && !('0' <= c <= '9')
    && !IsAsciiLower(c)
    && !IsAsciiUpper(c)
    && c != '_'
  }

  /** Position `i` of `s` starts a word for `strings.Title`. */
  predicate StartsWord(s: string, i: nat)
    requires i < |s|
  {
    i == 0 || IsSeparator(s[i - 1])
  }

  /** Go's `strings.ToLower`: no ASCII upper-case letter is left behind and
      nothing else changes. */
  function ToLower(s: string): (r: string)
    ensures |r| == |s|
    ensures forall i :: 0 <= i < |s| ==> r[i] == LowerChar(s[i])
    ensures forall i :: 0 <= i < |r| ==> !IsAsciiUpper(r[i])
    ensures forall i :: 0 <= i < |s| && !IsAsciiUpper(s[i]) ==> r[i] == s[i]
  {
    if |s| == 0 then "" else [LowerChar(s[0])] + ToLower(s[1..])
  }

  /** The character-by-character map inside Go's `strings.Title`, carrying the
      previously seen character: a character is title-cased when the one
      before it (`prev` for the first) is a separator. */
  function TitleAfter(prev: char, s: string): (r: string)
    ensures |r| == |s|
    ensures forall i :: 0 <= i < |s| ==>
      r[i] == if IsSeparator(if i == 0 then prev else s[i - 1]) then TitleChar(s[i]) else s[i]
    decreases |s|
  {
    if |s| == 0 then ""
    else [if IsSeparator(prev) then TitleChar(s[0]) else s[0]] + TitleAfter(s[0], s[1..])
  }

  /** Go's `strings.Title`: the scan starts as if after a space. */
  function Title(s: string): (r: string)
    ensures |r| == |s|
    ensures forall i :: 0 <= i < |s| ==> r[i] == if StartsWord(s, i) then TitleChar(s[i]) else s[i]
  {
    TitleAfter(' ', s)
  }

  /** Surrounds a value with `*` wildcards, as the filter patterns do. */
  function Wrap(v: string): string {
    "*" + v + "*"
  }

  /** `*` separates words, so title-casing a wrapped value is wrapping the
      title-cased value. */
  lemma TitleWrap(v: string)
    ensures Title(Wrap(v)) == Wrap(Title(v))
  {
    var w := Wrap(v);
    assert |Title(w)| == |Wrap(Title(v))|;
    forall i | 0 <= i < |w| ensures Title(w)[i] == Wrap(Title(v))[i] {
      if i == 0 || i == |w| - 1 {
      } else if i == 1 {
        assert w[i] == v[0] && StartsWord(w, i) && StartsWord(v, 0);
      } else {
        assert w[i] == v[i - 1] && w[i - 1] == v[i - 2];
        assert StartsWord(w, i) == StartsWord(v, i - 1);
      }
    }
  }

  /** Lower-casing a wrapped value is wrapping the lower-cased value. */
  lemma LowerWrap(v: string)
    ensures ToLower(Wrap(v)) == Wrap(ToLower(v))
  {
    var w := Wrap(v);
    forall i | 0 <= i < |w| ensures ToLower(w)[i] == Wrap(ToLower(v))[i] {
      if 0 < i < |w| - 1 {
        assert w[i] == v[i - 1];
      }
    }
  }

  // ---------------------------------------------------------------------------
  // strconv
  // ---------------------------------------------------------------------------

  /** Go's `strconv.FormatBool`. */
  function FormatBool(b: bool): string {
    if b then "true" else "false"
  }
}

=== FILE: instances.dfy ===
/** The row shaping of `EC2Service.GetInstances`: each reservation of a
    DescribeInstances response becomes one table row holding the columns of
    its instances that are not terminated. */
module Instances {
  import opened Wrappers

  datatype Tag = Tag(key: string, value: string)

  /** The fields of an EC2 instance that the client reads. `tags` is `None`
      when the response carries no tag list; `publicIpAddress` is `None` when
      the instance has no public address. */
  datatype Instance = Instance(
    instanceId: string,
    stateName: string,
    privateIpAddress: string,
    publicIpAddress: Option<string>,
    instanceType: string,
    tags: Option<seq<Tag>>)

  datatype Reservation = Reservation(instances: seq<Instance>)

  const Terminated := "terminated"

  /** The scan of `getInstanceName`, with `name` the value found so far: every
      tag whose key is `Name` overwrites it. */
  function NameScan(tags: seq<Tag>, name: string): (r: string)
    ensures (forall i :: 0 <= i < |tags| ==> tags[i].key != "Name") ==> r == name
    ensures (exists i :: 0 <= i < |tags| && tags[i].key == "Name") ==>
      exists i :: 0 <= i < |tags| && tags[i].key == "Name" && r == tags[i].value
        && forall j :: i < j < |tags| ==> tags[j].key != "Name"
    decreases |tags|
  {
    if |tags| == 0 then name
    else
      var r := NameScan(tags[1..], if tags[0].key == "Name" then tags[0].value else name);
      assert forall j :: 1 <= j < |tags| ==> tags[j] == tags[1..][j - 1];
      r
  }

  /** `getInstanceName`: the value of the last tag keyed `Name`, or the empty
      string when there is none. */
  function InstanceName(tags: seq<Tag>): (r: string)
    ensures (forall i :: 0 <= i < |tags| ==> tags[i].key != "Name") ==> r == ""
    ensures (exists i :: 0 <= i < |tags| && tags[i].key == "Name") ==>
      exists i :: 0 <= i < |tags| && tags[i].key == "Name" && r == tags[i].value
        && forall j :: i < j < |tags| ==> tags[j].key != "Name"
  {
    NameScan(tags, "")
  }

  /** The columns one instance contributes to its reservation's row. */
  function InstanceColumns(t: Instance): (cols: seq<string>)
    ensures t.stateName == Terminated ==> cols == []
    ensures t.stateName != Terminated ==>
      && |cols| == (if t.tags.Some? then 6 else 5)
      && (t.tags.Some? ==> cols[0] == InstanceName(t.tags.value))
      && cols[|cols| - 5..] == [t.instanceId, t.stateName, t.privateIpAddress, t.publicIpAddress.GetOr(""), t.instanceType]
  {
    if t.stateName == Terminated then []
    else
      (if t.tags.Some? then [InstanceName(t.tags.value)] else [])
      + [t.instanceId, t.stateName, t.privateIpAddress, t.publicIpAddress.GetOr(""), t.instanceType]
  }

  /** The row of one reservation: its instances' columns, in order. The row of
      a single instance is that instance's columns, and together with
      `RowConcat` this fixes every row. It has five columns per live instance
      plus one per live instance with a tag list, and it is empty exactly when
      every instance is terminated. */
  function ReservationRow(instances: seq<Instance>): (row: seq<string>)
    ensures |instances| == 1 ==> row == InstanceColumns(instances[0])
    ensures |row| == 5 * LiveCount(instances) + LiveTaggedCount(instances)
    ensures row == [] <==> forall i :: 0 <= i < |instances| ==> instances[i].stateName == Terminated
    decreases |instances|
  {
    if |instances| == 0 then []
    else
      assert forall i :: 1 <= i < |instances| ==> instances[i] == instances[1..][i - 1];
      InstanceColumns(instances[0]) + ReservationRow(instances[1..])
  }

  /** `EC2Service.GetInstances` after the DescribeInstances call: the call's
      error is passed on, otherwise there is one row per reservation. */
  function GetInstances(resp: Result<seq<Reservation>, string>): (r: Result<seq<seq<string>>, string>)
    ensures resp.Failure? ==> r == Failure(resp.error)
    ensures resp.Success? ==> r.Success? && |r.value| == |resp.value|
    ensures resp.Success? ==> forall i :: 0 <= i < |resp.value| ==> r.value[i] == ReservationRow(resp.value[i].instances)
  {
    match resp
    case Failure(e) => Failure(e)
    case Success(reservations) =>
      Success(seq(|reservations|, i requires 0 <= i < |reservations| => ReservationRow(reservations[i].instances)))
  }

  /** Number of instances that are not terminated. */
  function LiveCount(instances: seq<Instance>): nat
    decreases |instances|
  {
    if |instances| == 0 then 0
    else (if instances[0].stateName == Terminated then 0 else 1) + LiveCount(instances[1..])
  }

  /** Number of instances that are not terminated and carry a tag list. */
  function LiveTaggedCount(instances: seq<Instance>): nat
    decreases |instances|
  {
    if |instances| == 0 then 0
    else
      var here := if instances[0].stateName != Terminated && instances[0].tags.Some? then 1 else 0;
      here + LiveTaggedCount(instances[1..])
  }

  /** Rows of consecutive instances concatenate. */
  lemma {:induction false} RowConcat(a: seq<Instance>, b: seq<Instance>)
    ensures ReservationRow(a + b) == ReservationRow(a) + ReservationRow(b)
    decreases |a|
  {
    if |a| == 0 {
      assert a + b == b;
    } else {
      assert (a + b)[0] == a[0];
      assert (a + b)[1..] == a[1..] + b;
      RowConcat(a[1..], b);
    }
  }

  /** A terminated instance contributes nothing, wherever it stands. */
  lemma TerminatedContributesNothing(a: seq<Instance>, t: Instance, b: seq<Instance>)
    requires t.stateName == Terminated
    ensures ReservationRow(a + [t] + b) == ReservationRow(a + b)
  {
    assert ReservationRow([t]) == [] by {
      assert [t][1..] == [];
    }
    calc {
      ReservationRow(a + [t] + b);
      { RowConcat(a + [t], b); }
      ReservationRow(a + [t]) + ReservationRow(b);
      { RowConcat(a, [t]); }
      ReservationRow(a) + ReservationRow(b);
      { RowConcat(a, b); }
      ReservationRow(a + b);
    }
  }
}

=== FILE: rds.dfy ===
/** The row shaping of `RDSService.GetRDSInstances`: every DB instance that is
    not terminated becomes one six-column table row. */
module Rds {
  import opened Wrappers
  import opened GoStrings

  /** The status of a DB instance that `GetRDSInstances` skips. */
  const Terminated := "terminated"

  /** The fields of an RDS DB instance that the client reads. */
  datatype DBInstance = DBInstance(
    identifier: string,
    status: string,
    endpointAddress: string,
    instanceClass: string,
    engine: string,
    engineVersion: string,
    multiAZ: bool)

  /** `utils.WordWrap(text, separator, width)`, whose body is not part of this
      model: the caller passes it in and nothing is assumed about it. */
  type WordWrap = (string, char, int) -> string

  /** The row of one DB instance: wrapped identifier, status, wrapped endpoint
      address, instance class, `engine/version` and Multi-AZ as `true`/`false`. */
  function DBRow(db: DBInstance, wordWrap: WordWrap): (row: seq<string>)
    ensures |row| == 6 && row[1] == db.status && row[3] == db.instanceClass
    ensures row[0] == wordWrap(db.identifier, '-', 2) && row[2] == wordWrap(db.endpointAddress, '.', 2)
    ensures row[4] == db.engine + "/" + db.engineVersion
    ensures row[5] == "true" <==> db.multiAZ
    ensures row[5] == "false" <==> !db.multiAZ
    ensures '/' !in db.engine && '/' !in db.engineVersion ==> Split(row[4], '/') == [db.engine, db.engineVersion]
  {
    if '/' !in db.engine && '/' !in db.engineVersion then
      EngineColumnSplits(db.engine, db.engineVersion);
      DBColumns(db, wordWrap)
    else
      DBColumns(db, wordWrap)
  }

  /** The six columns, in the order the client appends them. */
  function DBColumns(db: DBInstance, wordWrap: WordWrap): seq<string> {
    [ wordWrap(db.identifier, '-', 2),
      db.status,
      wordWrap(db.endpointAddress, '.', 2),
      db.instanceClass,
      db.engine + "/" + db.engineVersion,
      FormatBool(db.multiAZ) ]
  }

  /** The DB instances that are not terminated, in their original order. */
  function LiveDBs(dbs: seq<DBInstance>): (live: seq<DBInstance>)
    ensures |live| <= |dbs|
    ensures forall k :: 0 <= k < |live| ==> live[k].status != Terminated
    ensures forall i :: 0 <= i < |dbs| && dbs[i].status != Terminated ==> dbs[i] in live
    ensures forall k :: 0 <= k < |live| ==> live[k] in dbs
    decreases |dbs|
  {
    if |dbs| == 0 then []
    else
      var rest := LiveDBs(dbs[1..]);
      assert forall i :: 1 <= i < |dbs| ==> dbs[i] == dbs[1..][i - 1];
      if dbs[0].status == Terminated then rest else [dbs[0]] + rest
  }

  /** The row loop of `GetRDSInstances`: terminated DB instances are skipped,
      every other one appends its row. */
  function DBRows(dbs: seq<DBInstance>, wordWrap: WordWrap): (rows: seq<seq<string>>)
    ensures |rows| <= |dbs|
    ensures forall k :: 0 <= k < |rows| ==> |rows[k]| == 6 && rows[k][1] != Terminated
    decreases |dbs|
  {
    if |dbs| == 0 then []
    else if dbs[0].status == Terminated then DBRows(dbs[1..], wordWrap)
    else [DBRow(dbs[0], wordWrap)] + DBRows(dbs[1..], wordWrap)
  }

  /** The rows are exactly the rows of the live DB instances, one each, in order. */
  lemma {:induction false} RowsOfLiveDBs(dbs: seq<DBInstance>, wordWrap: WordWrap)
    ensures var live := LiveDBs(dbs);
      && |DBRows(dbs, wordWrap)| == |live|
      && forall k :: 0 <= k < |live| ==> DBRows(dbs, wordWrap)[k] == DBRow(live[k], wordWrap)
    decreases |dbs|
  {
    if |dbs| > 0 {
      RowsOfLiveDBs(dbs[1..], wordWrap);
    }
  }

  /** `RDSService.GetRDSInstances` after the DescribeDBInstances call: the
      call's error is passed on, otherwise the live DB instances' rows. */
  function GetRDSInstances(resp: Result<seq<DBInstance>, string>, wordWrap: WordWrap): (r: Result<seq<seq<string>>, string>)
    ensures resp.Failure? ==> r == Failure(resp.error)
    ensures resp.Success? ==> r.Success? && |r.value| == |LiveDBs(resp.value)|
    ensures resp.Success? ==> forall k :: 0 <= k < |r.value| ==> r.value[k] == DBRow(LiveDBs(resp.value)[k], wordWrap)
  {
    match resp
    case Failure(e) => Failure(e)
    case Success(dbs) =>
      RowsOfLiveDBs(dbs, wordWrap);
      Success(DBRows(dbs, wordWrap))
  }

  /** `engine/version` splits back into engine and version when neither holds a `/`. */
  lemma EngineColumnSplits(engine: string, version: string)
    requires '/' !in engine && '/' !in version
    ensures Split(engine + "/" + version, '/') == [engine, version]
  {
    SplitJoin([engine, version], '/');
    assert Join([engine, version], '/') == engine + "/" + version by {
      assert [engine, version][1..] == [version];
    }
  }

  /** Live DB instances of consecutive lists concatenate, so the filter keeps
      input order and takes each live instance exactly once. */
  lemma {:induction false} LiveDBsConcat(a: seq<DBInstance>, b: seq<DBInstance>)
    ensures LiveDBs(a + b) == LiveDBs(a) + LiveDBs(b)
    decreases |a|
  {
    if |a| == 0 {
      assert a + b == b;
    } else {
      assert (a + b)[0] == a[0];
      assert (a + b)[1..] == a[1..] + b;
      LiveDBsConcat(a[1..], b);
    }
  }

  /** A single DB instance is kept exactly when it is not terminated. */
  lemma LiveDBsSingle(db: DBInstance)
    ensures LiveDBs([db]) == if db.status == Terminated then [] else [db]
  {
    assert [db][1..] == [];
  }
}

=== FILE: requests.dfy ===
/** The request values the client builds before calling the provider: S3
    object listing and EC2 start and stop. The calls themselves are not part
    of this model. */
module Requests {
  import opened Wrappers

  /** Go's `int64`. */
  newtype int64 = x: int | -0x8000_0000_0000_0000 <= x < 0x8000_0000_0000_0000

  /** The optional S3 listing arguments of `S3Service`; the empty string means
      "not given". */
  datatype S3Options = S3Options(continuationToken: string, maxCount: int64, prefix: string)

  /** The fields of a ListObjectsV2 request that the client sets; `None` is a
      nil pointer. */
  datatype ListObjectsV2Input = ListObjectsV2Input(
    bucket: string,
    maxKeys: int64,
    prefix: Option<string>,
    continuationToken: Option<string>)

  /** Reads the options back out of a listing request. */
  function OptionsOf(req: ListObjectsV2Input): S3Options {
    S3Options(req.continuationToken.GetOr(""), req.maxKeys, req.prefix.GetOr(""))
  }

  /** The request of `S3Service.GetObjects`: bucket and page size always, the
      prefix and the continuation token only when they are non-empty. The
      options can be read back from the request unchanged. */
  function GetObjectsRequest(bucket: string, opts: S3Options): (req: ListObjectsV2Input)
    ensures req.bucket == bucket
    ensures req.prefix.Some? <==> opts.prefix != ""
    ensures req.continuationToken.Some? <==> opts.continuationToken != ""
    ensures req.prefix != Some("") && req.continuationToken != Some("")
    ensures OptionsOf(req) == opts
  {
    ListObjectsV2Input(
      bucket,
      opts.maxCount,
      if opts.prefix != "" then Some(opts.prefix) else None,
      if opts.continuationToken != "" then Some(opts.continuationToken) else None)
  }

  datatype StartInstancesInput = StartInstancesInput(dryRun: bool, instanceIds: seq<string>)

  datatype StopInstancesInput = StopInstancesInput(dryRun: bool, instanceIds: seq<string>)

  /** The loop shared by `StartInstances` and `StopInstances` that copies the
      instance IDs into the request, one pointer per ID. */
  method InstanceIdList(ids: seq<string>) returns (instanceIds: seq<string>)
    ensures instanceIds == ids
  {
    instanceIds := [];
    var i := 0;
    while i < |ids|
      invariant 0 <= i <= |ids|
      invariant instanceIds == ids[..i]
    {
      instanceIds := instanceIds + [ids[i]];
      i := i + 1;
    }
  }

  /** The request of `EC2Service.StartInstances`: every ID, in order, and the
      dry-run flag. */
  method StartInstances(ids: seq<string>, dryRun: bool) returns (req: StartInstancesInput)
    ensures req.dryRun == dryRun
    ensures req.instanceIds == ids
  {
    var instanceIds := InstanceIdList(ids);
    req := StartInstancesInput(dryRun, instanceIds);
  }

  /** The request of `EC2Service.StopInstances`: every ID, in order, and the
      dry-run flag. */
  method StopInstances(ids: seq<string>, dryRun: bool) returns (req: StopInstancesInput)
    ensures req.dryRun == dryRun
    ensures req.instanceIds == ids
  {
    var instanceIds := InstanceIdList(ids);
    req := StopInstancesInput(dryRun, instanceIds);
  }
}

=== FILE: wrappers.dfy ===
/** Optional values and value-or-error results used throughout the model: `Option` stands for a
    Go pointer that may be nil, `Result` for a Go `(value, error)` pair. */
module Wrappers {

  datatype Option<+T> = None | Some(value: T) {

    /** The pointed-to value, or `default` when the pointer is nil. */
    function GetOr(default: T): T {
      match this
      case Some(v) => v
      case None => default
    }
  }

  datatype Result<+R, +E> = Success(value: R) | Failure(error: E)
}
